=== FILE: README.md ===
# Asset registry reconciliation, modelled in Dafny

This project models the registry reconciliation logic of the asset-registry
manager (`internal/manager/commands.go`). The registry is a set of files:
an info record per (chain, token address), a logo per (chain, token address),
and two token lists per chain, "default" and "extended". The model covers
four operations over that registry.

- **Adding a token to a token list** (`Reconciler.AddTokenToTokenList`).
  Both list variants are read and scanned for the asset identifier. The
  token's info record is read and projected into a token-list entry. The
  entry is appended to the target variant, which is written back with
  `version.major` one higher.
- **Manual template creation** (`Templates.CreateAssetInfoTemplate`). A
  composite asset identifier is parsed and its chain looked up. A record that
  is all placeholders except the address is written.
- **Remote template creation** (`Templates.CreateAssetInfoFromRemote`). A
  record is built from a feed candidate. Its logo is fetched first and the
  info file is written second.
- **Batch ingestion** (`Ingestion.IngestFeed`, with `Ingestion.Ingest` as its
  functional definition). This is the per-candidate loop that runs after the
  remote feed is decoded.

The filesystem is abstract. `Registry.Store` holds three maps: token lists
keyed by (chain handle, variant), info records keyed by (chain handle,
address), and logos keyed the same way. A logo entry records the URL its
image came from. A file that is missing or does not parse is absent from its
map, so a failed read and an absent key are the same thing.

The collaborators appear as parameters:

- `Registry.Config` holds the chain table (a map from coin id to chain), the
  asset-identifier parser, the logo-URL derivation, the assets-app base URL,
  the brand logo and the already-formatted timestamp.
- `Registry.Faults` says which I/O steps fail. It has one set each for file
  creation, byte writing, JSON re-formatting, logo directory creation and
  image fetching (by URL).

Info files are written in three steps: create, write, then format. The
outcome depends on which step fails:

- a failed create changes nothing;
- a failed write leaves a truncated file, which no later read can parse;
- a failed format reports an error. The model takes the record as readable
  afterwards; this is a modelling choice (see "## Left out").

So the template operations can report an error after they have written.
Token-list files are written by one serialising call, modelled with only the
create and write steps.

Further behaviour of the code that the model keeps:

- The logo is fetched from the candidate's `OriginLogoURI` only. `LogoURI` is
  never used, not even when `OriginLogoURI` is empty
  (`Templates.LogoUriIsIgnored`). A request to an empty URL has no scheme and
  always fails, so a candidate without an origin logo URL is always reported
  as failed and nothing is written for it (`Ingestion.EmptyOriginLogoFails`).
- The manual template does not check whether an info record already exists.
  It overwrites any existing record, including a curated one, with the
  placeholder record (`Templates.ManualTemplateOverwrites`).
- The logo is written before the info file. A logo failure therefore means
  no info file is written.
- The token list's display name uses the chain table's entry for
  `chain.ID`, not the name carried by the `chain` argument. An id missing
  from the table yields Go's zero-valued chain, so the name ends in an empty
  string. The same zero-valued chain (`Registry.CoinOf`) is what the
  ingestion loop uses for an unknown chain id.
- The candidate's `ChainID` is never read. Every candidate is looked up and
  created under the chain the batch was started for, so a candidate whose
  `chainId` names another chain is still created under the batch's chain
  (`Registry.RemoteAsset.chainId` is carried but unused).
- The ingestion loop prints a "succeed" message for records that already
  exist and prints nothing for records it has just created. The model
  reports each candidate as `AlreadyKnown`, `Created` or `Failed`, rather
  than modelling the printed text.

## Model

| member | source | states |
|---|---|---|
| Registry.WriteInfo | internal/manager/commands.go:206-225 | the info write succeeds exactly when create, write and format all succeed; a failed create changes nothing; only the one info file can change, and it ends up holding the new record, its old record, or nothing |
| Registry.WriteList | internal/manager/commands.go:132-138 | the list write succeeds exactly when create and write succeed, and the file then holds the new list; a failure leaves the registry as it was or the target list unreadable; no other file changes |
| Reconciler.ScanForDuplicate | internal/manager/commands.go:90-106 | the scan passes exactly when every scanned variant is readable and does not list the identifier; otherwise the error names the first variant, in scan order, that is unreadable or lists it |
| Reconciler.ScanPassesIff | internal/manager/commands.go:91-106 | the scan over default then extended passes exactly when both lists are readable and neither lists the identifier |
| Reconciler.AddTokenToTokenList | internal/manager/commands.go:87-139 | info records and logos never change; only the target variant's list can change; on an error the registry is unchanged unless the final list write failed and left the target unreadable |
| Reconciler.DuplicateIsRejected | internal/manager/commands.go:90-106 | an identifier already in either variant makes the call fail and write nothing, whatever the target; the outcome is the same for both targets; with the default list readable the error is a duplicate |
| Reconciler.ReadFailureWritesNothing | internal/manager/commands.go:96-119 | if either list or the token's info record cannot be read, the call fails and writes nothing |
| Reconciler.AddSucceedsIff | internal/manager/commands.go:87-139 | success exactly when both variants are readable and free of the identifier, the info record is readable, and the target file can be written |
| Reconciler.SuccessfulAdd | internal/manager/commands.go:108-138 | on success the target keeps its old entries in order and gains exactly one entry at the end; that entry's asset, type, address, name, symbol and decimals are the identifier and the stored record's fields; its logo URL depends only on (base URL, handle, token id); the major version is the value read plus one; the list's name is "Trust Wallet: " followed by the chain table's name for the chain's id; the sibling list is unchanged |
| Reconciler.AddPreservesUniqueness | internal/manager/commands.go:90-138 | if every chain lists each identifier at most once across both variants, that still holds after any add, whether it succeeds or fails |
| Templates.CreateAssetInfoTemplate | internal/manager/commands.go:25-85 | an identifier that does not parse, or an unknown chain, gives that error and writes nothing; only the parsed asset's info file can change; on success it holds the address as id, empty name, type and symbol, zero decimals, empty website, explorer and status, one empty link and tags `[""]` |
| Templates.CreateTemplateOkIff | internal/manager/commands.go:25-85 | the manual template succeeds exactly when the identifier parses, the chain is known, and the info file can be created, written and formatted |
| Templates.CreateLogo | internal/manager/commands.go:163-171 | the logo is created exactly when its directory can be made and the origin logo URL is non-empty and can be fetched (an empty URL always fails); it then comes from the origin logo URL; a failure changes nothing; no other file changes |
| Templates.CreateAssetInfoFromRemote | internal/manager/commands.go:173-228 | a logo failure, including an empty origin logo URL, means an error and no change at all; any change to the info file implies the logo was written from the origin URL; success exactly when the origin logo URL is non-empty and no logo or info step fails; on success the record copies name, symbol, decimals and address (as id), has type "coin" and placeholder website, explorer, status, links and tags |
| Templates.ManualTemplateOverwrites | internal/manager/commands.go:36-85 | when an info record already exists for the parsed asset, a successful manual template replaces it with the placeholder record |
| Templates.LogoUriIsIgnored | internal/manager/commands.go:163-171 | two candidates that differ only in their `LogoURI` produce the same outcome and the same registry |
| Templates.TemplatesShareCurationFields | internal/manager/commands.go:173-196 | the remote template is the manual template for the same address with name, symbol, decimals and type "coin" filled in |
| Templates.RemoteAssetListsConsistently | internal/manager/commands.go:121-129 | a candidate created from the feed and then added to a list gets an entry carrying the candidate's address, name, symbol and decimals, with type "coin" |
| Ingestion.IngestOneCreatesOnlyMissing | internal/manager/commands.go:275-283 | a readable record gives "already known" and no write; an unreadable one means the remote template creation is attempted; otherwise the report is `Created` exactly when the remote template creation returns Ok and `Failed`, carrying that creation's error, exactly when it returns an error; a reported creation leaves a readable record; existing records, their logos and all token lists are untouched |
| Ingestion.IngestOneWritesOnlyItsAddress | internal/manager/commands.go:275-283 | one candidate changes the presence or content of info records and logos at its own (chain handle, address) only |
| Ingestion.EmptyOriginLogoFails | internal/manager/commands.go:163-171 | a candidate with no readable record and an empty origin logo URL is reported failed and the registry is left exactly as it was |
| Ingestion.IngestReportsEveryCandidate | internal/manager/commands.go:274-284 | a batch reports on every candidate in feed order, including those after a failure; it leaves token lists and existing records with their logos alone; candidates with a readable record are reported known; every candidate not reported failed has a readable record afterwards |
| Ingestion.IngestWritesOnlyFeedAddresses | internal/manager/commands.go:274-284 | a batch changes the presence or content of info records and logos only at (chain handle, address) keys of its feed's candidates |
| Ingestion.IngestFeed | internal/manager/commands.go:274-286 | the loop produces exactly the reports and final registry of the candidate-by-candidate definition, and returns the number of candidates |
| Ingestion.IngestSplits | internal/manager/commands.go:274-284 | a batch over two concatenated feeds is the first batch followed by the second, starting from the registry the first left |
| Ingestion.FailureDoesNotStopBatch | internal/manager/commands.go:276-280 | candidate i is processed from the registry its predecessors left, whatever their outcomes |
| Ingestion.KnownFeedWritesNothing | internal/manager/commands.go:274-284 | when every candidate already has a readable record, every report is "already known" and the registry is unchanged |
| Ingestion.IngestIsIdempotent | internal/manager/commands.go:274-284 | after a run in which no creation failed, a second run over the same feed, under any faults of its own, reports every candidate known and writes nothing |
| Ingestion.SecondRunRetriesOnlyFailures | internal/manager/commands.go:274-284 | in a second run over the same feed, under any faults of its own, every candidate that did not fail the first time is reported known |

## Left out

- HTTP request, body read and JSON decode of the feed (`handleAsyncTokenList` before the loop). These are network I/O, and any failure there ends the process. The decoded feed is an input sequence.
- JSON marshalling, file handles and their deferred close. The deferred close ends the process on error. Marshalling cannot fail for these records. Files are abstract map entries, and each write step can fail through `Faults`.
- Image fetching and PNG encoding. These are a foreign library plus the network. A fetch succeeds or fails per URL, and a failed fetch leaves the logo file as it was: a logo already at the key survives.
- Path derivation (`GetAssetInfoPath`, `GetAssetLogoPath`, `GetTokenListPath`). These are external. Distinct keys are assumed to give distinct files.
- Asset-identifier parsing (`asset.ParseID`) and the logo-URL derivation (`GetAssetLogoURL`). These are external and are functions supplied in `Config`.
- The chain table (`coin.Coins`) and the static supported-chains table. These are data. The chain table is a map in `Config`.
- `setup()`, global configuration and the clock. The timestamp is an arbitrary value in `Config`.
- Logging and printed messages. They are replaced by per-candidate reports.
- Go pointer semantics. Info fields are always present, so the nil dereferences in the entry construction cannot happen. Decimals are `nat`, so the `int` to `uint` cast is not modelled and negative feed decimals cannot be expressed.
- Token-list variants other than default and extended. `Variant` has exactly these two values, so the re-read of the target list can never fail after a passing scan.
- `Version.Major` is an unbounded integer. A 64-bit overflow is not modelled.
- Registry.WriteInfo: the effect of a failed re-format is not shown by the code, since the formatter is external. The model keeps the freshly written record readable. A formatter that truncates before failing would instead leave the file unreadable, as a failed write does. No other contract depends on this choice.
- Concurrency. Every operation is sequential over one store, so the single-writer assumption is built in.
- Directory creation for the logo. It is modelled only as a step that can fail. The directories it leaves behind are not tracked.

=== FILE: ingestion.dfy ===
/**
  Batch ingestion of a decoded remote feed.

  Each candidate is looked up in feed order: a readable info record means the
  asset is already known and nothing is written for it; otherwise its logo and
  info record are created. A failed creation is reported for that address and
  the batch goes on with the next candidate.
*/
module Ingestion {
  import opened Registry
  import Templates

  /** What happened to one candidate. */
  datatype ItemReport =
    | AlreadyKnown(address: string)
    | Created(address: string)
    | Failed(address: string, error: Error)

  /** The per-candidate reports of a batch and the registry it leaves behind. */
  datatype Run = Run(reports: seq<ItemReport>, after: Store)

  /**
    Token lists are untouched, and every info record that existed before is
    still there, unchanged, with its logo as it was.
  */
  ghost predicate KeepsExisting(before: Store, after: Store)
  {
    && after.lists == before.lists
    && (forall k :: k in before.infos ==> k in after.infos && after.infos[k] == before.infos[k])
    && (forall k :: k in before.infos ==> (k in after.logos <==> k in before.logos))
    && (forall k :: k in before.infos && k in before.logos ==> k in after.logos && after.logos[k] == before.logos[k])
  }

  /** The info and logo files of `chain` at the feed's addresses. */
  function FeedKeys(chain: Coin, feed: seq<RemoteAsset>): set<AssetKey>
  {
    set i | 0 <= i < |feed| :: AssetKey(chain.handle, feed[i].address)
  }

  /** One candidate: create its record only when none can be read. */
  function IngestOne(faults: Faults, chain: Coin, store: Store, a: RemoteAsset): (r: Run)
    ensures |r.reports| == 1
  {
    if GetAssetInfo(store, chain, a.address).Some? then
      Run([AlreadyKnown(a.address)], store)
    else
      var step := Templates.CreateAssetInfoFromRemote(faults, store, chain, a);
      if step.outcome.Ok? then Run([Created(a.address)], step.after)
      else Run([Failed(a.address, step.outcome.error)], step.after)
  }

  /**
    A readable record means the candidate is reported as known and nothing is
    written; an unreadable one means creation is attempted, and a reported
    creation leaves a readable record. Existing records are never touched.
  */
  lemma IngestOneCreatesOnlyMissing(faults: Faults, chain: Coin, store: Store, a: RemoteAsset)
    ensures var r := IngestOne(faults, chain, store, a);
            && r.reports[0].address == a.address
            && (r.reports[0].AlreadyKnown? <==> AssetKey(chain.handle, a.address) in store.infos)
            && (r.reports[0].AlreadyKnown? ==> r.after == store)
            && (!r.reports[0].AlreadyKnown? ==> r.after == Templates.CreateAssetInfoFromRemote(faults, store, chain, a).after)
            && (r.reports[0].Created? ==> AssetKey(chain.handle, a.address) in r.after.infos)
            && KeepsExisting(store, r.after)
    ensures var r := IngestOne(faults, chain, store, a);
            var step := Templates.CreateAssetInfoFromRemote(faults, store, chain, a);
            && (r.reports[0].Created? <==> AssetKey(chain.handle, a.address) !in store.infos && step.outcome.Ok?)
            && (r.reports[0].Failed? <==> AssetKey(chain.handle, a.address) !in store.infos && step.outcome.Err?)
            && (r.reports[0].Failed? ==> r.reports[0].error == step.outcome.error)
  {
  }

  /** One candidate changes info records and logos at its own address only. */
  lemma IngestOneWritesOnlyItsAddress(faults: Faults, chain: Coin, store: Store, a: RemoteAsset)
    ensures UnchangedOutside(store, IngestOne(faults, chain, store, a).after, {AssetKey(chain.handle, a.address)})
  {
  }

  /**
    A candidate without a readable record and with an empty origin logo URL is
    reported as failed, and the registry is left exactly as it was.
  */
  lemma EmptyOriginLogoFails(faults: Faults, chain: Coin, store: Store, a: RemoteAsset)
    requires AssetKey(chain.handle, a.address) !in store.infos
    requires a.originLogoUri == ""
    ensures IngestOne(faults, chain, store, a).reports[0].Failed?
    ensures IngestOne(faults, chain, store, a).after == store
  {
  }

  /** The whole batch, candidate by candidate in feed order. */
  function Ingest(faults: Faults, chain: Coin, store: Store, feed: seq<RemoteAsset>): (r: Run)
    ensures |r.reports| == |feed|
    decreases |feed|
  {
    if |feed| == 0 then Run([], store)
    else
      var first := IngestOne(faults, chain, store, feed[0]);
      var rest := Ingest(faults, chain, first.after, feed[1..]);
      Run(first.reports + rest.reports, rest.after)
  }

  /**
    A batch reports on every candidate, in feed order; it leaves token lists and
    existing records alone; a candidate with a readable record is reported as
    known; and every candidate whose creation did not fail has a readable
    record afterwards.
  */
  lemma {:induction false} IngestReportsEveryCandidate(faults: Faults, chain: Coin, store: Store, feed: seq<RemoteAsset>)
    ensures var r := Ingest(faults, chain, store, feed);
            && |r.reports| == |feed|
            && (forall i :: 0 <= i < |feed| ==> r.reports[i].address == feed[i].address)
            && KeepsExisting(store, r.after)
            && (forall i :: 0 <= i < |feed| && AssetKey(chain.handle, feed[i].address) in store.infos ==>
                  r.reports[i].AlreadyKnown?)
            && (forall i :: 0 <= i < |feed| && !r.reports[i].Failed? ==>
                  AssetKey(chain.handle, feed[i].address) in r.after.infos)
    decreases |feed|
  {
    if |feed| > 0 {
      var first := IngestOne(faults, chain, store, feed[0]);
      IngestOneCreatesOnlyMissing(faults, chain, store, feed[0]);
      IngestReportsEveryCandidate(faults, chain, first.after, feed[1..]);
      assert forall i :: 0 < i < |feed| ==> feed[i] == feed[1..][i - 1];
    }
  }

  /** A batch changes info records and logos only at the addresses its feed names. */
  lemma {:induction false} IngestWritesOnlyFeedAddresses(faults: Faults, chain: Coin, store: Store, feed: seq<RemoteAsset>)
    ensures UnchangedOutside(store, Ingest(faults, chain, store, feed).after, FeedKeys(chain, feed))
    decreases |feed|
  {
    if |feed| > 0 {
      var first := IngestOne(faults, chain, store, feed[0]);
      IngestOneWritesOnlyItsAddress(faults, chain, store, feed[0]);
      IngestWritesOnlyFeedAddresses(faults, chain, first.after, feed[1..]);
      UnchangedOutsideCompose(store, first.after, Ingest(faults, chain, store, feed).after,
                              {AssetKey(chain.handle, feed[0].address)}, FeedKeys(chain, feed[1..]));
      assert FeedKeys(chain, feed) == {AssetKey(chain.handle, feed[0].address)} + FeedKeys(chain, feed[1..]);
    }
  }

  /**
    The per-asset loop run after the feed has been fetched and decoded: the
    chain is looked up in the chain table, every candidate is processed, and
    the number of candidates is returned with the reports.
  */
  method IngestFeed(cfg: Config, faults: Faults, store: Store, chainId: nat, feed: seq<RemoteAsset>)
    returns (reports: seq<ItemReport>, processed: nat, after: Store)
    ensures Run(reports, after) == Ingest(faults, CoinOf(cfg.coins, chainId), store, feed)
    ensures processed == |feed|
  {
    var chain := CoinOf(cfg.coins, chainId);
    reports := [];
    after := store;
    var i := 0;
    while i < |feed|
      invariant 0 <= i <= |feed|
      invariant Run(reports + Ingest(faults, chain, after, feed[i..]).reports, Ingest(faults, chain, after, feed[i..]).after)
                == Ingest(faults, chain, store, feed)
    {
      var one := IngestOne(faults, chain, after, feed[i]);
      assert feed[i..][1..] == feed[i + 1..];
      reports := reports + one.reports;
      after := one.after;
      i := i + 1;
    }
    processed := |feed|;
  }

  /** A batch over `p + q` is the batch over `p` followed by the batch over `q` from where it left off. */
  lemma {:induction false} IngestSplits(faults: Faults, chain: Coin, store: Store, p: seq<RemoteAsset>, q: seq<RemoteAsset>)
    ensures var first := Ingest(faults, chain, store, p);
            var second := Ingest(faults, chain, first.after, q);
            Ingest(faults, chain, store, p + q) == Run(first.reports + second.reports, second.after)
    decreases |p|
  {
    if |p| == 0 {
      assert p + q == q;
    } else {
      var one := IngestOne(faults, chain, store, p[0]);
      var tail := Ingest(faults, chain, one.after, p[1..]);
      var second := Ingest(faults, chain, tail.after, q);
      var whole := Ingest(faults, chain, one.after, p[1..] + q);
      assert Ingest(faults, chain, store, p) == Run(one.reports + tail.reports, tail.after);
      assert whole == Run(tail.reports + second.reports, second.after) by {
        IngestSplits(faults, chain, one.after, p[1..], q);
      }
      assert Ingest(faults, chain, store, p + q) == Run(one.reports + whole.reports, whole.after) by {
        assert (p + q)[0] == p[0];
        assert (p + q)[1..] == p[1..] + q;
      }
      assert one.reports + (tail.reports + second.reports) == (one.reports + tail.reports) + second.reports;
    }
  }

  /**
    Candidate `i` is processed from the registry its predecessors left behind,
    whatever their outcomes: an earlier failure does not stop the batch.
  */
  lemma FailureDoesNotStopBatch(faults: Faults, chain: Coin, store: Store, feed: seq<RemoteAsset>, i: nat)
    requires i < |feed|
    ensures var before := Ingest(faults, chain, store, feed[..i]).after;
            Ingest(faults, chain, store, feed).reports[i] == IngestOne(faults, chain, before, feed[i]).reports[0]
  {
    IngestSplits(faults, chain, store, feed[..i], feed[i..]);
    assert feed[..i] + feed[i..] == feed;
  }

  /** The reports of a batch in which every candidate is already known. */
  function KnownReports(feed: seq<RemoteAsset>): (r: seq<ItemReport>)
    ensures |r| == |feed|
    ensures forall i :: 0 <= i < |feed| ==> r[i] == AlreadyKnown(feed[i].address)
  {
    seq(|feed|, i requires 0 <= i < |feed| => AlreadyKnown(feed[i].address))
  }

  /** When every candidate already has a readable record, the batch writes nothing. */
  lemma {:induction false} KnownFeedWritesNothing(faults: Faults, chain: Coin, store: Store, feed: seq<RemoteAsset>)
    requires forall i :: 0 <= i < |feed| ==> AssetKey(chain.handle, feed[i].address) in store.infos
    ensures Ingest(faults, chain, store, feed) == Run(KnownReports(feed), store)
    decreases |feed|
  {
    if |feed| > 0 {
      assert forall i :: 0 <= i < |feed[1..]| ==> feed[1..][i] == feed[i + 1];
      IngestOneCreatesOnlyMissing(faults, chain, store, feed[0]);
      KnownFeedWritesNothing(faults, chain, store, feed[1..]);
      assert KnownReports(feed) == [AlreadyKnown(feed[0].address)] + KnownReports(feed[1..]);
    }
  }

  /**
    Running the same feed a second time, after a first run in which no
    creation failed, reports every candidate as known and writes nothing,
    whatever fails in the environment of the second run.
  */
  lemma IngestIsIdempotent(faults: Faults, faults2: Faults, chain: Coin, store: Store, feed: seq<RemoteAsset>)
    requires forall i :: 0 <= i < |feed| ==> !Ingest(faults, chain, store, feed).reports[i].Failed?
    ensures var first := Ingest(faults, chain, store, feed);
            Ingest(faults2, chain, first.after, feed) == Run(KnownReports(feed), first.after)
  {
    IngestReportsEveryCandidate(faults, chain, store, feed);
    KnownFeedWritesNothing(faults2, chain, Ingest(faults, chain, store, feed).after, feed);
  }

  /**
    A second run, whatever fails in its environment, only retries the
    candidates whose creation failed in the first.
  */
  lemma SecondRunRetriesOnlyFailures(faults: Faults, faults2: Faults, chain: Coin, store: Store, feed: seq<RemoteAsset>)
    ensures var first := Ingest(faults, chain, store, feed);
            var second := Ingest(faults2, chain, first.after, feed);
            forall i :: 0 <= i < |feed| && !first.reports[i].Failed? ==> second.reports[i].AlreadyKnown?
  {
    IngestReportsEveryCandidate(faults, chain, store, feed);
    IngestReportsEveryCandidate(faults2, chain, Ingest(faults, chain, store, feed).after, feed);
  }
}

=== FILE: reconciler.dfy ===
/**
  Adding a token to one of a chain's token lists.

  The asset identifier must be new to the whole chain: both list variants are
  read and scanned before anything else happens. The new entry is built from
  the token's info record, appended to the target variant, and that variant is
  written back with its major version raised by one. Every failure before the
  final write leaves the registry untouched.
*/
module Reconciler {
  import opened Registry

  /** The variants the duplicate scan reads, in the order it reads them. */
  const ScanOrder: seq<Variant> := [Default, Extended]

  /** The list at `key` is readable and does not yet list `assetId`. */
  predicate Clear(store: Store, key: ListKey, assetId: string)
  {
    key in store.lists && assetId !in AssetsIn(store.lists[key].tokens)
  }

  /** `e` is the error the scan reports for the list at `key`. */
  predicate Blames(store: Store, key: ListKey, assetId: string, e: Error)
  {
    || (e == ReadFailed(ListFile(key)) && key !in store.lists)
    || (e == DuplicateAsset(ListFile(key)) && key in store.lists && assetId in AssetsIn(store.lists[key].tokens))
  }

  /**
    The duplicate scan: reads each variant in turn and stops at the first one
    that cannot be read or already lists `assetId`.
  */
  function ScanForDuplicate(store: Store, handle: string, assetId: string, variants: seq<Variant>): (r: Outcome)
    ensures r.Ok? <==> forall i :: 0 <= i < |variants| ==> Clear(store, ListKey(handle, variants[i]), assetId)
    ensures r.Err? ==>
              exists i :: 0 <= i < |variants| && Blames(store, ListKey(handle, variants[i]), assetId, r.error)
                                               && forall j :: 0 <= j < i ==> Clear(store, ListKey(handle, variants[j]), assetId)
    decreases |variants|
  {
    if |variants| == 0 then Ok
    else
      var key := ListKey(handle, variants[0]);
      if key !in store.lists then Err(ReadFailed(ListFile(key)))
      else if assetId in AssetsIn(store.lists[key].tokens) then Err(DuplicateAsset(ListFile(key)))
      else
        var rest := ScanForDuplicate(store, handle, assetId, variants[1..]);
        assert rest.Err? ==> exists i :: 0 < i < |variants| && Blames(store, ListKey(handle, variants[i]), assetId, rest.error)
                                                              && forall j :: 0 <= j < i ==> Clear(store, ListKey(handle, variants[j]), assetId) by {
          if rest.Err? {
            var k :| 0 <= k < |variants[1..]| && Blames(store, ListKey(handle, variants[1..][k]), assetId, rest.error)
                     && forall j :: 0 <= j < k ==> Clear(store, ListKey(handle, variants[1..][j]), assetId);
            assert forall j :: 0 < j < k + 1 ==> variants[j] == variants[1..][j - 1];
          }
        }
        rest
  }

  /** The display name written into a token list; an unknown chain id gives an empty chain name. */
  function ListName(cfg: Config, chain: Coin): string
  {
    "Trust Wallet: " + CoinOf(cfg.coins, chain.id).name
  }

  /** The token-list entry for `assetId`, projected from the token's info record. */
  function NewEntry(cfg: Config, chain: Coin, assetId: string, tokenId: string, info: AssetInfo): TokenEntry
  {
    TokenEntry(assetId, info.assetType, info.id, info.name, info.symbol, info.decimals,
               cfg.logoUrl(cfg.assetsApp, chain.handle, tokenId))
  }

  /**
    Adds `assetId` to the `target` list of `chain`, taking the entry's fields
    from the info record stored under `tokenId`. Only the target list can change.
  */
  function AddTokenToTokenList(cfg: Config, faults: Faults, store: Store, chain: Coin,
                               assetId: string, tokenId: string, target: Variant): (r: Step)
    ensures r.after.infos == store.infos && r.after.logos == store.logos
    ensures forall k :: k != ListKey(chain.handle, target) ==> (k in r.after.lists <==> k in store.lists)
    ensures forall k :: k != ListKey(chain.handle, target) && k in store.lists ==> r.after.lists[k] == store.lists[k]
    ensures r.outcome.Err? && r.after != store ==>
              r.outcome.error == WriteFailed(ListFile(ListKey(chain.handle, target)))
              && ListKey(chain.handle, target) !in r.after.lists
  {
    var scan := ScanForDuplicate(store, chain.handle, assetId, ScanOrder);
    if scan.Err? then Step(scan, store)
    else
      var key := ListKey(chain.handle, target);
      if key !in store.lists then Step(Err(ReadFailed(ListFile(key))), store)
      else
        var list := store.lists[key];
        var info := GetAssetInfo(store, chain, tokenId);
        if info.None? then Step(Err(ReadFailed(InfoFile(AssetKey(chain.handle, tokenId)))), store)
        else
          var entry := NewEntry(cfg, chain, assetId, tokenId, info.value);
          var written := TokenList(ListName(cfg, chain), cfg.brandLogo, cfg.timestamp,
                                   list.tokens + [entry], Version(list.version.major + 1));
          WriteList(faults, store, key, written)
  }

  /** The scan passes exactly when both variants are readable and neither lists `assetId`. */
  lemma ScanPassesIff(store: Store, handle: string, assetId: string)
    ensures ScanForDuplicate(store, handle, assetId, ScanOrder).Ok? <==>
              Clear(store, ListKey(handle, Default), assetId) && Clear(store, ListKey(handle, Extended), assetId)
  {
  }

  /**
    An identifier already listed in either variant is rejected, whatever the
    target, and nothing is written. When the default list is readable the
    error is a duplicate report.
  */
  lemma DuplicateIsRejected(cfg: Config, faults: Faults, store: Store, chain: Coin,
                            assetId: string, tokenId: string, target: Variant, found: Variant)
    requires ListKey(chain.handle, found) in store.lists
    requires assetId in AssetsIn(store.lists[ListKey(chain.handle, found)].tokens)
    ensures AddTokenToTokenList(cfg, faults, store, chain, assetId, tokenId, target).outcome.Err?
    ensures AddTokenToTokenList(cfg, faults, store, chain, assetId, tokenId, target).after == store
    ensures ListKey(chain.handle, Default) in store.lists ==>
              AddTokenToTokenList(cfg, faults, store, chain, assetId, tokenId, target).outcome.error.DuplicateAsset?
    ensures AddTokenToTokenList(cfg, faults, store, chain, assetId, tokenId, Default)
              == AddTokenToTokenList(cfg, faults, store, chain, assetId, tokenId, Extended)
  {
  }

  /** If a list variant or the token's info record cannot be read, the call fails and writes nothing. */
  lemma ReadFailureWritesNothing(cfg: Config, faults: Faults, store: Store, chain: Coin,
                                 assetId: string, tokenId: string, target: Variant)
    requires || ListKey(chain.handle, Default) !in store.lists
             || ListKey(chain.handle, Extended) !in store.lists
             || AssetKey(chain.handle, tokenId) !in store.infos
    ensures AddTokenToTokenList(cfg, faults, store, chain, assetId, tokenId, target).outcome.Err?
    ensures AddTokenToTokenList(cfg, faults, store, chain, assetId, tokenId, target).after == store
  {
  }

  /**
    The call succeeds exactly when both variants are readable and free of
    `assetId`, the info record is readable, and the target file can be rewritten.
  */
  lemma AddSucceedsIff(cfg: Config, faults: Faults, store: Store, chain: Coin,
                       assetId: string, tokenId: string, target: Variant)
    ensures AddTokenToTokenList(cfg, faults, store, chain, assetId, tokenId, target).outcome.Ok? <==>
                   && Clear(store, ListKey(chain.handle, Default), assetId)
                   && Clear(store, ListKey(chain.handle, Extended), assetId)
                   && AssetKey(chain.handle, tokenId) in store.infos
                   && ListFile(ListKey(chain.handle, target)) !in faults.createFails + faults.writeFails
  {
  }

  /**
    A successful add keeps the target's entries in order and appends exactly
    one entry projected from the stored info record; the major version rises
    by one; the sibling variant is read but left as it was.
  */
  lemma SuccessfulAdd(cfg: Config, faults: Faults, store: Store, chain: Coin,
                      assetId: string, tokenId: string, target: Variant, sibling: Variant)
    requires AddTokenToTokenList(cfg, faults, store, chain, assetId, tokenId, target).outcome.Ok?
    requires sibling != target
    ensures ListKey(chain.handle, target) in store.lists && AssetKey(chain.handle, tokenId) in store.infos
    ensures var before := store.lists[ListKey(chain.handle, target)];
            var after := AddTokenToTokenList(cfg, faults, store, chain, assetId, tokenId, target).after;
            var info := store.infos[AssetKey(chain.handle, tokenId)];
            && ListKey(chain.handle, target) in after.lists
            && var list := after.lists[ListKey(chain.handle, target)];
            && |list.tokens| == |before.tokens| + 1
            && list.tokens[..|before.tokens|] == before.tokens
            && list.tokens[|before.tokens|].asset == assetId
            && list.tokens[|before.tokens|].assetType == info.assetType
            && list.tokens[|before.tokens|].address == info.id
            && list.tokens[|before.tokens|].name == info.name
            && list.tokens[|before.tokens|].symbol == info.symbol
            && list.tokens[|before.tokens|].decimals == info.decimals
            && list.tokens[|before.tokens|].logoUri == cfg.logoUrl(cfg.assetsApp, chain.handle, tokenId)
            && list.version.major == before.version.major + 1
            && list.name == "Trust Wallet: " + CoinOf(cfg.coins, chain.id).name
            && list.logoUri == cfg.brandLogo
            && list.timestamp == cfg.timestamp
    ensures var after := AddTokenToTokenList(cfg, faults, store, chain, assetId, tokenId, target).after;
            && ListKey(chain.handle, sibling) in store.lists
            && ListKey(chain.handle, sibling) in after.lists
            && after.lists[ListKey(chain.handle, sibling)] == store.lists[ListKey(chain.handle, sibling)]
  {
  }

  /** The identifiers of a list, or none when the list cannot be read. */
  function AssetsOrNone(store: Store, key: ListKey): seq<string>
  {
    if key in store.lists then AssetsIn(store.lists[key].tokens) else []
  }

  /** Every identifier listed for a chain, default list first. */
  function ListedAssets(store: Store, handle: string): seq<string>
  {
    AssetsOrNone(store, ListKey(handle, Default)) + AssetsOrNone(store, ListKey(handle, Extended))
  }

  predicate Distinct(s: seq<string>)
  {
    forall i, j :: 0 <= i < j < |s| ==> s[i] != s[j]
  }

  /** Across both variants of every chain, each asset identifier is listed at most once. */
  ghost predicate UniqueListing(store: Store)
  {
    forall h :: Distinct(ListedAssets(store, h))
  }

  lemma DistinctParts(a: seq<string>, b: seq<string>)
    requires Distinct(a + b)
    ensures Distinct(a) && Distinct(b)
  {
    forall i, j | 0 <= i < j < |a| ensures a[i] != a[j] {
      assert a[i] == (a + b)[i] && a[j] == (a + b)[j];
    }
    forall i, j | 0 <= i < j < |b| ensures b[i] != b[j] {
      assert b[i] == (a + b)[|a| + i] && b[j] == (a + b)[|a| + j];
    }
  }

  lemma DistinctInsert(a: seq<string>, b: seq<string>, x: string)
    requires Distinct(a + b) && x !in a && x !in b
    ensures Distinct((a + [x]) + b) && Distinct(a + (b + [x]))
  {
    DistinctParts(a, b);
    var s := (a + [x]) + b;
    forall i, j | 0 <= i < j < |s| ensures s[i] != s[j] {
      if i < |a| && j > |a| {
        assert s[i] == (a + b)[i] && s[j] == (a + b)[j - 1];
      } else if i > |a| {
        assert s[i] == (a + b)[i - 1] && s[j] == (a + b)[j - 1];
      }
    }
    assert a + (b + [x]) == (a + b) + [x];
  }

  /**
    Adding a token keeps every chain's listing free of repeated identifiers,
    whether the call succeeds or fails.
  */
  lemma {:induction false} AddPreservesUniqueness(cfg: Config, faults: Faults, store: Store, chain: Coin,
                                                  assetId: string, tokenId: string, target: Variant)
    requires UniqueListing(store)
    ensures UniqueListing(AddTokenToTokenList(cfg, faults, store, chain, assetId, tokenId, target).after)
  {
    var r := AddTokenToTokenList(cfg, faults, store, chain, assetId, tokenId, target);
    var key := ListKey(chain.handle, target);
    forall h ensures Distinct(ListedAssets(r.after, h)) {
      assert Distinct(ListedAssets(store, h));
      var a := AssetsOrNone(store, ListKey(h, Default));
      var b := AssetsOrNone(store, ListKey(h, Extended));
      if h != chain.handle || r.after == store {
        assert AssetsOrNone(r.after, ListKey(h, Default)) == a;
        assert AssetsOrNone(r.after, ListKey(h, Extended)) == b;
      } else if r.outcome.Err? {
        DistinctParts(a, b);
        if target == Default {
          assert ListedAssets(r.after, h) == [] + b;
        } else {
          assert ListedAssets(r.after, h) == a + [];
        }
      } else {
        ScanPassesIff(store, chain.handle, assetId);
        AddSucceedsIff(cfg, faults, store, chain, assetId, tokenId, target);
        var before := store.lists[key];
        var entry := NewEntry(cfg, chain, assetId, tokenId, store.infos[AssetKey(chain.handle, tokenId)]);
        assert r.after.lists[key].tokens == before.tokens + [entry];
        AssetsInAppend(before.tokens, entry);
        DistinctInsert(a, b, assetId);
        if target == Default {
          assert ListedAssets(r.after, h) == (a + [assetId]) + b;
        } else {
          assert ListedAssets(r.after, h) == a + (b + [assetId]);
        }
      }
    }
  }
}

=== FILE: registry.dfy ===
/**
  The data model of the asset registry and its abstract on-disk state.

  The registry lives on a filesystem: one info record per (chain, address),
  one logo per (chain, address), and two token lists per chain. Here the
  filesystem is three maps; a file that is missing or does not parse is simply
  absent from its map, so "the read fails" and "the key is absent" coincide.
  Path derivation, JSON encoding, the chain table and the clock are collaborators
  and appear only through `Config` and `Faults`.
*/
module Registry {
  import opened Wrappers

  /** The two curation tiers of a chain's token list. */
  datatype Variant = Default | Extended

  /** A chain of the chain table: numeric id, short handle (used in paths), display name. */
  datatype Coin = Coin(id: nat, handle: string, name: string)

  datatype Link = Link(name: string, url: string)

  /**
    An asset info record. The stored format allows every field to be null;
    the core always writes every field, with "" and 0 as placeholders.
  */
  datatype AssetInfo = AssetInfo(
    name: string,
    assetType: string,
    symbol: string,
    decimals: nat,
    website: string,
    explorer: string,
    status: string,
    id: string,
    links: seq<Link>,
    tags: seq<string>)

  /** One entry of a token list: a projection of an info record plus a derived logo URL. */
  datatype TokenEntry = TokenEntry(
    asset: string,
    assetType: string,
    address: string,
    name: string,
    symbol: string,
    decimals: nat,
    logoUri: string)

  datatype Version = Version(major: int)

  datatype TokenList = TokenList(
    name: string,
    logoUri: string,
    timestamp: string,
    tokens: seq<TokenEntry>,
    version: Version)

  /** A candidate asset as decoded from the remote feed. */
  datatype RemoteAsset = RemoteAsset(
    chainId: int,
    address: string,
    name: string,
    symbol: string,
    decimals: nat,
    logoUri: string,
    originLogoUri: string)

  datatype ListKey = ListKey(handle: string, variant: Variant)
  datatype AssetKey = AssetKey(handle: string, address: string)

  /** The files the core touches; distinct keys give distinct files. */
  datatype Path = InfoFile(asset: AssetKey) | LogoFile(logo: AssetKey) | ListFile(list: ListKey)

  /**
    The readable part of the registry. `logos` records, for each logo file,
    the URL the image was fetched from.
  */
  datatype Store = Store(
    lists: map<ListKey, TokenList>,
    infos: map<AssetKey, AssetInfo>,
    logos: map<AssetKey, string>)

  /** The two halves of a composite asset identifier. */
  datatype ParsedId = ParsedId(coin: nat, tokenId: string)

  /**
    Everything the core reads from its collaborators: the assets-app base URL,
    the brand logo URL, the current timestamp (already formatted), the chain
    table, the asset-identifier parser and the logo-URL derivation.
  */
  datatype Config = Config(
    assetsApp: string,
    brandLogo: string,
    timestamp: string,
    coins: map<nat, Coin>,
    parseId: string -> Option<ParsedId>,
    logoUrl: (string, string, string) -> string)

  /**
    Which I/O steps fail: creating a file, writing its bytes, re-formatting it,
    creating a logo's directory, and fetching an image from a URL.
  */
  datatype Faults = Faults(
    createFails: set<Path>,
    writeFails: set<Path>,
    formatFails: set<Path>,
    dirFails: set<Path>,
    fetchFails: set<string>)

  datatype Error =
    | InvalidTokenId(token: string)
    | UnknownChain(coin: nat)
    | ReadFailed(path: Path)
    | DuplicateAsset(path: Path)
    | CreateFailed(path: Path)
    | WriteFailed(path: Path)
    | FormatFailed(path: Path)
    | DirFailed(path: Path)
    | FetchFailed(url: string)

  datatype Outcome = Ok | Err(error: Error)

  /** The result of an operation together with the registry it leaves behind. */
  datatype Step = Step(outcome: Outcome, after: Store)

  /** A lookup in the chain table; a missing id yields the zero-valued chain. */
  function CoinOf(coins: map<nat, Coin>, id: nat): Coin
  {
    if id in coins then coins[id] else Coin(0, "", "")
  }

  /** The asset identifiers of a token list, in list order. */
  function AssetsIn(tokens: seq<TokenEntry>): (r: seq<string>)
    ensures |r| == |tokens|
    ensures forall i :: 0 <= i < |tokens| ==> r[i] == tokens[i].asset
  {
    seq(|tokens|, i requires 0 <= i < |tokens| => tokens[i].asset)
  }

  lemma AssetsInAppend(tokens: seq<TokenEntry>, e: TokenEntry)
    ensures AssetsIn(tokens + [e]) == AssetsIn(tokens) + [e.asset]
  {
  }

  /** `before` and `after` hold the same info records under every key outside `keys`. */
  predicate InfosAgreeOutside(before: Store, after: Store, keys: set<AssetKey>)
  {
    && after.infos.Keys - keys == before.infos.Keys - keys
    && (forall k :: k !in keys && k in before.infos ==> k in after.infos && after.infos[k] == before.infos[k])
  }

  /** `before` and `after` hold the same logos under every key outside `keys`. */
  predicate LogosAgreeOutside(before: Store, after: Store, keys: set<AssetKey>)
  {
    && after.logos.Keys - keys == before.logos.Keys - keys
    && (forall k :: k !in keys && k in before.logos ==> k in after.logos && after.logos[k] == before.logos[k])
  }

  /** Info records and logos agree between `before` and `after` at every key outside `keys`. */
  predicate UnchangedOutside(before: Store, after: Store, keys: set<AssetKey>)
  {
    InfosAgreeOutside(before, after, keys) && LogosAgreeOutside(before, after, keys)
  }

  /** Two steps that each change only their own keys together change only the union. */
  lemma UnchangedOutsideCompose(s0: Store, s1: Store, s2: Store, k1: set<AssetKey>, k2: set<AssetKey>)
    requires UnchangedOutside(s0, s1, k1) && UnchangedOutside(s1, s2, k2)
    ensures UnchangedOutside(s0, s2, k1 + k2)
  {
    assert s2.infos.Keys - (k1 + k2) == (s2.infos.Keys - k2) - k1;
    assert s0.infos.Keys - (k1 + k2) == (s0.infos.Keys - k1) - k2;
    assert s2.logos.Keys - (k1 + k2) == (s2.logos.Keys - k2) - k1;
    assert s0.logos.Keys - (k1 + k2) == (s0.logos.Keys - k1) - k2;
  }

  /** Only the info record at `key` may differ. */
  predicate InfosAgreeExcept(before: Store, after: Store, key: AssetKey)
  {
    InfosAgreeOutside(before, after, {key})
  }

  /** Only the logo at `key` may differ. */
  predicate LogosAgreeExcept(before: Store, after: Store, key: AssetKey)
  {
    LogosAgreeOutside(before, after, {key})
  }

  /** The info file at `key` was created, replaced or made unreadable. */
  predicate InfoTouched(before: Store, after: Store, key: AssetKey)
  {
    || (key in before.infos) != (key in after.infos)
    || (key in before.infos && key in after.infos && before.infos[key] != after.infos[key])
  }

  /** Reads a chain's info record for `tokenId`; None when it is missing or unreadable. */
  function GetAssetInfo(store: Store, chain: Coin, tokenId: string): (r: Option<AssetInfo>)
    ensures r.Some? <==> AssetKey(chain.handle, tokenId) in store.infos
    ensures r.Some? ==> r.value == store.infos[AssetKey(chain.handle, tokenId)]
  {
    var key := AssetKey(chain.handle, tokenId);
    if key in store.infos then Some(store.infos[key]) else None
  }

  /**
    Creates an info file, writes the record, then re-formats the file. A failed
    create leaves everything as it was; a failed write leaves a truncated file,
    which no later read can parse; a failed format leaves the record readable
    but still reports an error.
  */
  function WriteInfo(faults: Faults, store: Store, key: AssetKey, rec: AssetInfo): (r: Step)
    ensures r.after.lists == store.lists && r.after.logos == store.logos
    ensures InfosAgreeExcept(store, r.after, key)
    ensures r.outcome.Ok? <==> InfoFile(key) !in faults.createFails + faults.writeFails + faults.formatFails
    ensures InfoFile(key) in faults.createFails ==> r == Step(Err(CreateFailed(InfoFile(key))), store)
    ensures key in r.after.infos ==>
              r.after.infos[key] == rec || (key in store.infos && r.after.infos[key] == store.infos[key])
    ensures r.outcome.Ok? ==> key in r.after.infos && r.after.infos[key] == rec
  {
    var p := InfoFile(key);
    if p in faults.createFails then
      Step(Err(CreateFailed(p)), store)
    else if p in faults.writeFails then
      Step(Err(WriteFailed(p)), store.(infos := store.infos - {key}))
    else if p in faults.formatFails then
      Step(Err(FormatFailed(p)), store.(infos := store.infos[key := rec]))
    else
      Step(Ok, store.(infos := store.infos[key := rec]))
  }

  /**
    Rewrites a token-list file as one serialised write: a failed create leaves
    the old file; a failed write leaves a truncated, unreadable one.
  */
  function WriteList(faults: Faults, store: Store, key: ListKey, list: TokenList): (r: Step)
    ensures r.after.infos == store.infos && r.after.logos == store.logos
    ensures forall k :: k != key ==> (k in r.after.lists <==> k in store.lists)
    ensures forall k :: k != key && k in store.lists ==> r.after.lists[k] == store.lists[k]
    ensures r.outcome.Ok? <==> ListFile(key) !in faults.createFails + faults.writeFails
    ensures r.outcome.Ok? ==> key in r.after.lists && r.after.lists[key] == list
    ensures r.outcome.Err? ==> r.after == store || key !in r.after.lists
  {
    var p := ListFile(key);
    if p in faults.createFails then
      Step(Err(CreateFailed(p)), store)
    else if p in faults.writeFails then
      Step(Err(WriteFailed(p)), store.(lists := store.lists - {key}))
    else
      Step(Ok, store.(lists := store.lists[key := list]))
  }
}

=== FILE: templates.dfy ===
/**
  Creating info records for assets that are not yet in the registry.

  A manual template starts from a composite asset identifier and holds only the
  address; a remote template starts from a feed candidate and copies its name,
  symbol, decimals and address. Both leave the curation fields (website,
  explorer, status, links, tags) as placeholders. A remote template fetches the
  logo first and writes the info file only after the logo is in place.
*/
module Templates {
  import opened Registry
  import Reconciler

  /** The asset type a remote template assigns. */
  const CoinType: string := "coin"

  /** The curation fields still hold the placeholders a template writes. */
  predicate AwaitingCuration(info: AssetInfo)
  {
    && info.website == ""
    && info.explorer == ""
    && info.status == ""
    && info.links == [Link("", "")]
    && info.tags == [""]
  }

  /** The record a manual template writes: the address and nothing else. */
  function ManualTemplate(tokenId: string): AssetInfo
  {
    AssetInfo("", "", "", 0, "", "", "", tokenId, [Link("", "")], [""])
  }

  /** The record a remote template writes for a feed candidate. */
  function RemoteTemplate(a: RemoteAsset): AssetInfo
  {
    AssetInfo(a.name, CoinType, a.symbol, a.decimals, "", "", "", a.address, [Link("", "")], [""])
  }

  /**
    Writes a placeholder record for a composite asset identifier. An identifier
    that does not parse, or names a chain missing from the chain table, is an
    error that writes nothing.
  */
  function CreateAssetInfoTemplate(cfg: Config, faults: Faults, store: Store, token: string): (r: Step)
    ensures r.after.lists == store.lists && r.after.logos == store.logos
    ensures cfg.parseId(token).None? ==> r == Step(Err(InvalidTokenId(token)), store)
    ensures cfg.parseId(token).Some? && cfg.parseId(token).value.coin !in cfg.coins ==>
              r == Step(Err(UnknownChain(cfg.parseId(token).value.coin)), store)
    ensures r.after != store ==>
              && cfg.parseId(token).Some? && cfg.parseId(token).value.coin in cfg.coins
              && InfosAgreeExcept(store, r.after,
                                  AssetKey(cfg.coins[cfg.parseId(token).value.coin].handle, cfg.parseId(token).value.tokenId))
    ensures r.outcome.Ok? ==>
              && cfg.parseId(token).Some? && cfg.parseId(token).value.coin in cfg.coins
              && var id := cfg.parseId(token).value;
              && var key := AssetKey(cfg.coins[id.coin].handle, id.tokenId);
              && key in r.after.infos
              && r.after.infos[key].id == id.tokenId
              && r.after.infos[key].name == ""
              && r.after.infos[key].assetType == ""
              && r.after.infos[key].symbol == ""
              && r.after.infos[key].decimals == 0
              && AwaitingCuration(r.after.infos[key])
  {
    var parsed := cfg.parseId(token);
    if parsed.None? then Step(Err(InvalidTokenId(token)), store)
    else if parsed.value.coin !in cfg.coins then Step(Err(UnknownChain(parsed.value.coin)), store)
    else
      var chain := cfg.coins[parsed.value.coin];
      WriteInfo(faults, store, AssetKey(chain.handle, parsed.value.tokenId), ManualTemplate(parsed.value.tokenId))
  }

  /**
    A manual template is written exactly when the identifier parses, its chain
    is known, and the info file can be created, written and formatted.
  */
  lemma CreateTemplateOkIff(cfg: Config, faults: Faults, store: Store, token: string)
    ensures CreateAssetInfoTemplate(cfg, faults, store, token).outcome.Ok? <==>
              && cfg.parseId(token).Some?
              && cfg.parseId(token).value.coin in cfg.coins
              && InfoFile(AssetKey(cfg.coins[cfg.parseId(token).value.coin].handle, cfg.parseId(token).value.tokenId))
                   !in faults.createFails + faults.writeFails + faults.formatFails
  {
  }

  /**
    Materialises a candidate's logo: creates its directory, then fetches the
    image from the candidate's origin logo URL. A candidate without an origin
    logo URL has it empty, and a request to an empty URL has no scheme, so that
    fetch always fails. On failure no logo is recorded.
  */
  function CreateLogo(faults: Faults, store: Store, key: AssetKey, a: RemoteAsset): (r: Step)
    ensures r.after.lists == store.lists && r.after.infos == store.infos
    ensures LogosAgreeExcept(store, r.after, key)
    ensures r.outcome.Ok? <==>
              LogoFile(key) !in faults.dirFails && a.originLogoUri != "" && a.originLogoUri !in faults.fetchFails
    ensures r.outcome.Err? ==> r.after == store
    ensures r.outcome.Ok? ==> key in r.after.logos && r.after.logos[key] == a.originLogoUri
  {
    var p := LogoFile(key);
    if p in faults.dirFails then Step(Err(DirFailed(p)), store)
    else if a.originLogoUri == "" || a.originLogoUri in faults.fetchFails then Step(Err(FetchFailed(a.originLogoUri)), store)
    else Step(Ok, store.(logos := store.logos[key := a.originLogoUri]))
  }

  /**
    Creates the logo and then the info record for a feed candidate. The info
    file is touched only after the logo has been written, so a logo failure
    leaves the registry as it was.
  */
  function CreateAssetInfoFromRemote(faults: Faults, store: Store, chain: Coin, a: RemoteAsset): (r: Step)
    ensures r.after.lists == store.lists
    ensures InfosAgreeExcept(store, r.after, AssetKey(chain.handle, a.address))
    ensures LogosAgreeExcept(store, r.after, AssetKey(chain.handle, a.address))
    ensures (|| LogoFile(AssetKey(chain.handle, a.address)) in faults.dirFails
             || a.originLogoUri == ""
             || a.originLogoUri in faults.fetchFails) ==>
              r.outcome.Err? && r.after == store
    ensures InfoTouched(store, r.after, AssetKey(chain.handle, a.address)) ==>
              && AssetKey(chain.handle, a.address) in r.after.logos
              && r.after.logos[AssetKey(chain.handle, a.address)] == a.originLogoUri
    ensures r.outcome.Ok? <==>
              && LogoFile(AssetKey(chain.handle, a.address)) !in faults.dirFails
              && a.originLogoUri != ""
              && a.originLogoUri !in faults.fetchFails
              && InfoFile(AssetKey(chain.handle, a.address)) !in faults.createFails + faults.writeFails + faults.formatFails
    ensures r.outcome.Ok? ==>
              && AssetKey(chain.handle, a.address) in r.after.infos
              && var info := r.after.infos[AssetKey(chain.handle, a.address)];
              && info.id == a.address
              && info.name == a.name
              && info.symbol == a.symbol
              && info.decimals == a.decimals
              && info.assetType == CoinType
              && AwaitingCuration(info)
  {
    var key := AssetKey(chain.handle, a.address);
    var logo := CreateLogo(faults, store, key, a);
    if logo.outcome.Err? then logo
    else WriteInfo(faults, logo.after, key, RemoteTemplate(a))
  }

  /**
    A manual template written over an existing record replaces it: whatever
    was curated there before gives way to the placeholder record.
  */
  lemma ManualTemplateOverwrites(cfg: Config, faults: Faults, store: Store, token: string)
    requires cfg.parseId(token).Some? && cfg.parseId(token).value.coin in cfg.coins
    requires AssetKey(cfg.coins[cfg.parseId(token).value.coin].handle, cfg.parseId(token).value.tokenId) in store.infos
    requires CreateAssetInfoTemplate(cfg, faults, store, token).outcome.Ok?
    ensures var key := AssetKey(cfg.coins[cfg.parseId(token).value.coin].handle, cfg.parseId(token).value.tokenId);
            CreateAssetInfoTemplate(cfg, faults, store, token).after.infos[key]
              == ManualTemplate(cfg.parseId(token).value.tokenId)
  {
  }

  /**
    The candidate's `logoUri` plays no part: two candidates that differ only in
    it produce the same registry and the same outcome.
  */
  lemma LogoUriIsIgnored(faults: Faults, store: Store, chain: Coin, a: RemoteAsset, other: string)
    ensures CreateAssetInfoFromRemote(faults, store, chain, a)
              == CreateAssetInfoFromRemote(faults, store, chain, a.(logoUri := other))
  {
  }

  /**
    The two templates share every curation placeholder and differ only in the
    fields a feed candidate supplies.
  */
  lemma TemplatesShareCurationFields(tokenId: string, a: RemoteAsset)
    requires a.address == tokenId
    ensures RemoteTemplate(a)
              == ManualTemplate(tokenId).(name := a.name, assetType := CoinType, symbol := a.symbol, decimals := a.decimals)
  {
  }

  /**
    A candidate created from the feed and then added to a token list yields an
    entry that carries the candidate's address, name, symbol and decimals, with
    the type the remote template assigned.
  */
  lemma RemoteAssetListsConsistently(cfg: Config, faults: Faults, store: Store, chain: Coin, a: RemoteAsset,
                                     assetId: string, target: Variant)
    requires CreateAssetInfoFromRemote(faults, store, chain, a).outcome.Ok?
    requires Reconciler.AddTokenToTokenList(cfg, faults, CreateAssetInfoFromRemote(faults, store, chain, a).after,
                                            chain, assetId, a.address, target).outcome.Ok?
    ensures var created := CreateAssetInfoFromRemote(faults, store, chain, a).after;
            var listed := Reconciler.AddTokenToTokenList(cfg, faults, created, chain, assetId, a.address, target).after;
            var key := ListKey(chain.handle, target);
            && key in listed.lists
            && |listed.lists[key].tokens| > 0
            && var e := listed.lists[key].tokens[|listed.lists[key].tokens| - 1];
            && e == TokenEntry(assetId, CoinType, a.address, a.name, a.symbol, a.decimals,
                               cfg.logoUrl(cfg.assetsApp, chain.handle, a.address))
  {
  }
}

=== FILE: wrappers.dfy ===
/** The optional-value datatype used for reads that may find nothing. */
module Wrappers {

  /** Some value, or None when there is nothing to return. */
  datatype Option<+T> = None | Some(value: T)
}
